=== FILE: README.md ===
# Connections board: a Dafny model

This project models the puzzle-solving core of a "Connections" word game.

A puzzle hides sixteen words in four categories. The player selects up to four
words and guesses them as a group:
- a guess that matches a whole category takes its words off the grid;
- a guess with three words of some category (one word away from it) is answered "One away";
- any other miss is answered "Sorry";
- repeating an earlier wrong guess, in any order, is answered "You've already
  guessed that combination".

The model has five modules:

- `Wrappers`: `Option`, which stands in for a lookup that can come back
  `undefined`.
- `Sequences`: the sequence helpers the component relies on:
  - `indexOf`/`find` as `FirstIndex`;
  - the two `filter`s as `Keep` (words of `s` in `t`) and `Drop` (words of `s`
    not in `t`);
  - duplicate-freedom and the subsequence order.
- `Rows`: the grid as rows of words:
  - flattening (`flat()`);
  - the "slice into rows of four" loop, as the function `Chunk` and the method
    `ChunkRows`;
  - the shuffle, with its randomness supplied as a sequence of picks (`Draw`).
- `PuzzleService`: the puzzle records, the normalisation of the keyed
  ("nyt") record shape into the canonical one, lookup by id and the dataset
  sizes. The two bundled JSON datasets are parameters.
- `Board`: the session state of the board component (current puzzle,
  remaining rows, selection, wrong and correct guesses, message). Each player
  action is a pure `State -> State` function:
  - `OnClickCell`, `GuessSelected`, `Shuffle`, `DeselectAll`;
  - `InitPuzzle` with its reset `Reset`;
  - `GuessSelectedLoop`, which is the `for`/`break` loop of `guessSelected`
    written as a method and proved equal to the function.

The message constants are as in the component: `ALREADY_GUESSED`, `ONE_AWAY`
and `SORRY`. Setting a message and clearing it are plain field updates.

`Valid` is the invariant the actions keep:
- at most four distinct words are selected;
- every recorded wrong guess is such a selection.

## Model

| member | source | states |
|---|---|---|
| Sequences.FirstIndex | src/app/board/board.component.ts:57 | `indexOf`/`find`: the position of the first element satisfying the test, or None exactly when no element does |
| Sequences.Keep | src/app/board/board.component.ts:128 | `a.filter(aEl => b.includes(aEl))`: the words of `s` that occur in `t`, in their order; never longer than `s` (membership in both directions is `KeepMembership`) |
| Sequences.KeepMembership | src/app/board/board.component.ts:128 | a word is kept exactly when it occurs in both sequences |
| Sequences.Drop | src/app/board/board.component.ts:88 | `filter(el => !selectedCells.includes(el))`: the words of `s` that do not occur in `t`, in their order; never longer than `s` (membership is `DropMembership`) |
| Sequences.DropMembership | src/app/board/board.component.ts:88 | a grid word survives the filter exactly when it was not selected |
| Sequences.DropIsSubsequence | src/app/board/board.component.ts:88 | the filtered words keep their relative order |
| Sequences.DropExactCount | src/app/board/board.component.ts:88 | removing the words of a duplicate-free selection from a duplicate-free grid that holds them shortens it by the selection's length |
| Rows.Flatten | src/app/board/board.component.ts:88 | `flat()` on the grid (also line 108): the rows concatenated in order; its meaning is stated by `FlattenMembership` and by the round trip with `Chunk` |
| Rows.FlattenMembership | src/app/board/board.component.ts:88 | a word is in the flattened grid exactly when it is in some row |
| Rows.Chunk | src/app/board/board.component.ts:89-92 | the rows concatenate back to the input; every row has 1 to 4 words and all but the last have exactly 4 |
| Rows.ChunkRowCount | src/app/board/board.component.ts:90-92 | the number of rows is the word count divided by four, rounded up |
| Rows.ChunkFlattenRoundTrip | src/app/board/board.component.ts:110-113 | any well-shaped grid is the chunking of its own flattening, so the shape determines the rows |
| Rows.ChunkRows | src/app/board/board.component.ts:89-92 | the `i += 4` / `slice(i, i + 4)` loop builds exactly the rows of `Chunk` |
| Rows.Draw | src/app/board/board.component.ts:108-109 | the shuffled words are a permutation (same multiset) of the words before |
| Rows.DrawReachesEveryArrangement | src/app/board/board.component.ts:109 | every permutation of the words is the outcome of some sequence of random picks |
| PuzzleService.NormalizeNytPuzzle | src/app/puzzle-api/puzzle.service.ts:61-84 | id and starting rows are kept; the i-th category carries the i-th key as its commonality and that key's level and members; distinct keys give distinct commonalities |
| PuzzleService.NormalizeGroups | src/app/puzzle-api/puzzle.service.ts:68-81 | the `Object.keys(...).forEach(... push ...)` loop: one category per key, in key order, the i-th with the i-th key as commonality and that key's level and members |
| PuzzleService.NormalizeThenToNyt | src/app/puzzle-api/puzzle.service.ts:68-81 | normalisation loses nothing: the keyed record is recovered from its normal form |
| PuzzleService.ToNytThenNormalize | src/app/puzzle-api/puzzle.service.ts:68-81 | every canonical puzzle with distinct commonalities is the normal form of a keyed record with distinct labels |
| PuzzleService.FetchOne | src/app/puzzle-api/puzzle.service.ts:48-55 | for "orig", the first record with the id, unmodified; for "nyt", the normal form of that record; None exactly when no record of the chosen dataset has the id |
| PuzzleService.GetNumberPuzzles | src/app/puzzle-api/puzzle.service.ts:57-59 | carries no `ensures`: its one-line body (the keyed dataset's length for "nyt", the canonical one's for any other string) is its specification |
| PuzzleService.FetchedRecordIsCounted | src/app/puzzle-api/puzzle.service.ts:57-59 | a found record sits at a position below the count `getNumberPuzzles` reports for its source ("nyt" counts the keyed dataset, anything else the canonical one) |
| Board.InitialIsValid | src/app/board/board.component.ts:18-24 | the field initialisers (no puzzle, nothing selected, no guesses, empty message) form a valid session |
| Board.ArrayEquals | src/app/board/board.component.ts:122-125 | `arrayEquals`: every word of `a` occurs in `b` and the lengths agree; `ArrayEqualsIsSetEquality` states what this means on duplicate-free guesses |
| Board.ArrayEqualsIsSetEquality | src/app/board/board.component.ts:122-125 | on duplicate-free guesses `arrayEquals` holds exactly when both contain the same words, in any order |
| Board.AlreadyGuessed | src/app/board/board.component.ts:75 | the repeat guard `wrongGuesses.some(g => arrayEquals(g, selectedCells))`; its effect is stated by `GuessSelectedOutcomes` and `RepeatedWrongGuessIsRejected` |
| Board.ArraysIntersection | src/app/board/board.component.ts:127-129 | a word is in the intersection exactly when it is in both arguments |
| Board.IntersectionKeepsOrder | src/app/board/board.component.ts:127-129 | the intersection keeps the order of the selection |
| Board.IntersectionSize | src/app/board/board.component.ts:127-129 | for a duplicate-free selection the intersection is duplicate-free and its length is the number of shared words |
| Board.Overlap | src/app/board/board.component.ts:82-84 | `arraysIntersection(selectedCells, grp.members).length`; `IntersectionSize` states it is the number of shared words for a duplicate-free selection |
| Board.MaxIntersectionUpTo | src/app/board/board.component.ts:79-83 | `largestIntersection` after the first n categories; its meaning is `MaxIntersectionUpToIsMaximum` |
| Board.MaxIntersection | src/app/board/board.component.ts:79-83 | `largestIntersection` after the whole loop; its meaning is `MaxIntersectionIsMaximum` |
| Board.MaxIntersectionUpToIsMaximum | src/app/board/board.component.ts:79-83 | the running maximum after n categories bounds each of their overlaps and, unless zero, equals one of them |
| Board.MaxIntersectionIsMaximum | src/app/board/board.component.ts:79-83 | after the loop the maximum is the largest overlap with any category |
| Board.OnClickCell | src/app/board/board.component.ts:55-67 | clears the message; a selected word is taken out at its first position; an unselected word is appended when fewer than four are selected, otherwise nothing changes; the selection never exceeds four and stays duplicate-free; no other field changes |
| Board.IsSelected | src/app/board/board.component.ts:69-71 | `isSelected`: whether the word is in the selection; `ClickTogglesSelection` relates it to clicks |
| Board.ClickTogglesSelection | src/app/board/board.component.ts:55-71 | a click flips `isSelected` for the clicked word unless it would be a fifth word |
| Board.ClickTwiceRestoresSelection | src/app/board/board.component.ts:55-67 | clicking an unselected word twice restores the selection |
| Board.GuessSelected | src/app/board/board.component.ts:73-103 | keeps the current puzzle; its behaviour is stated by `GuessSelectedOutcomes` and `GuessSelectedLoop` |
| Board.GuessSelectedOutcomes | src/app/board/board.component.ts:73-103 | a repeat of a wrong guess only sets ALREADY_GUESSED; otherwise the first fully selected category is appended to the correct guesses, the selection empties, the grid becomes the old words minus the selected ones in well-shaped rows, and the message stays empty; if no category reaches four, the selection is recorded as wrong, with ONE_AWAY exactly when some category shares three words and SORRY otherwise |
| Board.VisitGroups | src/app/board/board.component.ts:79-97 | the loop stops at the first category with four shared words, or runs to the end with the maximum overlap and no full match |
| Board.GuessSelectedLoop | src/app/board/board.component.ts:73-103 | the imperative guess, loop and chunking loop included, gives the same state as `GuessSelected` |
| Board.GuessSelectedPreservesValid | src/app/board/board.component.ts:73-103 | guessing keeps the selection within four distinct words and every wrong guess such a selection |
| Board.RepeatedWrongGuessIsRejected | src/app/board/board.component.ts:75-78 | once rejected, the same words reselected in any order get ALREADY_GUESSED and nothing else changes |
| Board.UnderfilledGuessIsWrong | src/app/board/board.component.ts:99-102 | a selection of fewer than four words is recorded as wrong with ONE_AWAY or SORRY, and grid, selection and correct guesses are unchanged |
| Board.CorrectGuessLeavesNoSelectedWord | src/app/board/board.component.ts:84-92 | after any correct guess none of the selected words is left in any row |
| Board.CorrectGuessRemovesExactlyTheSelection | src/app/board/board.component.ts:84-92 | on a grid without repeats holding the selected words, a correct guess removes exactly four words and none of the selected words is left in any row |
| Board.CorrectGuessKeepsGridOrder | src/app/board/board.component.ts:88-92 | after a correct guess the words left keep their relative order, and a grid without repeats stays without repeats |
| Board.Shuffle | src/app/board/board.component.ts:106-114 | the new grid's words are a permutation of the old ones in well-shaped rows; only the grid and the message change; validity is kept |
| Board.ShuffleReachesEveryArrangement | src/app/board/board.component.ts:106-114 | every arrangement of the remaining words, in rows of four, is a possible shuffle result |
| Board.DeselectAll | src/app/board/board.component.ts:116-119 | only the selection (emptied) and the message (cleared) change; validity is kept |
| Board.Reset | src/app/board/board.component.ts:39-48 | a delivered puzzle starts a fresh, valid session on its starting rows |
| Board.InitPuzzle | src/app/board/board.component.ts:37-53 | the first record with the id (normalised for "nyt") resets the session; a missing "orig" record clears only the current puzzle; a missing "nyt" record changes nothing; validity is kept |
| Board.InitPuzzleForgetsPriorState | src/app/board/board.component.ts:37-48 | a successful load gives the same session whatever state it replaces, on the puzzle with the requested id |
| Board.InitPuzzleIdempotent | src/app/board/board.component.ts:37-53 | loading the same puzzle twice is the same as loading it once |

## Left out

- The message expiry timer (`alertUser`/`clearMessage` with `setTimeout`/`clearTimeout`, lines 131-141 of src/app/board/board.component.ts) is asynchronous. Only "message set" and "message cleared" are modelled.
- `Math.random` and the `sort` comparator of `shuffle` are replaced by an explicit sequence of picks. `Draw` uses them as "take the word at position pick mod n of the words not yet drawn". Only the outcome is claimed: a permutation, with every permutation reachable. The distribution of `sort` with a random comparator is not modelled.
- RxJS `Observable`/`of`/`subscribe`, the Angular lifecycle hooks, decorators and `console` logging are not modelled. `InitPuzzle` applies the `next` handler directly to what `fetchOne` delivers.
- The bundled datasets `nyt.json` and `orig.json` are parameters (`origs`, `nyts`).
- src/app/app.component.ts and src/app/app.module.ts only forward inputs and wire modules. They are not part of this model.
- GuessSelected: requires a loaded puzzle, so the crash when `guessSelected` iterates over an undefined `currentPuzzle` is not modelled. The requirement also excludes the repeat-guard path without a puzzle. In the source that path returns before the loop, so it does not crash. It is reachable: a missing "orig" load clears `currentPuzzle` and keeps `wrongGuesses`.
- A missing record is not delivered as a state. `fetchOne` on an unknown id yields `undefined`:
  - for "orig", the `next` handler stores it and then fails on `.startingGroups`;
  - for "nyt", normalising `undefined` fails inside `fetchOne`.

  `InitPuzzle` models only the state left behind in each case. The exceptions themselves are not modelled.
- The order of `Object.keys` is not modelled. `NytPuzzle.groups` lists the keys in iteration order. JavaScript's reordering of integer-like keys is taken as already applied.
- GetNumberPuzzles: no contract beyond its one-line body, which is the specification: the length of the keyed dataset for "nyt" and of the canonical one for any other string. `FetchedRecordIsCounted` only links the count to `FetchOne`: a found record sits below the count for its source.
- Word values are unrestricted strings. The source's `===`/`includes` comparison is modelled as sequence equality.

=== FILE: board.dfy ===
/**
 * The puzzle-solving session of the board component: its state, the player
 * actions (clicking a cell, guessing, shuffling, deselecting) and the reset
 * done when a puzzle arrives. Each action is a pure State -> State function.
 */
module Board {
  import opened Wrappers
  import opened Sequences
  import opened Rows
  import opened PuzzleService

  const ALREADY_GUESSED: string := "You've already guessed that combination"
  const ONE_AWAY: string := "One away"
  const SORRY: string := "Sorry"

  /** Words in a category, and the most a player may select at once. */
  const GroupSize: nat := 4

  /** The fields of the board component that the actions read and write. */
  datatype State = State(
    currentPuzzle: Option<Puzzle>,
    remainingWords: seq<seq<string>>,
    selectedCells: seq<string>,
    wrongGuesses: seq<seq<string>>,
    correctGuesses: seq<Category>,
    messageToUser: string)

  /** The field initialisers, before any puzzle has arrived. */
  const Initial: State := State(None, [], [], [], [], "")

  /**
   * What the actions keep true: at most four distinct words are selected,
   * and every recorded wrong guess is such a selection.
   */
  predicate Valid(st: State) {
    && |st.selectedCells| <= GroupSize
    && NoDup(st.selectedCells)
    && forall i :: 0 <= i < |st.wrongGuesses| ==>
         NoDup(st.wrongGuesses[i]) && |st.wrongGuesses[i]| <= GroupSize
  }

  /** The session starts out valid: nothing selected and no wrong guesses. */
  lemma InitialIsValid()
    ensures Valid(Initial)
  {
  }

  /** `arrayEquals`: every word of `a` occurs in `b`, and the lengths agree. */
  predicate ArrayEquals(a: seq<string>, b: seq<string>) {
    (forall i :: 0 <= i < |a| ==> a[i] in b) && |a| == |b|
  }

  /** On duplicate-free guesses `arrayEquals` is order-insensitive equality of the word sets. */
  lemma ArrayEqualsIsSetEquality(a: seq<string>, b: seq<string>)
    requires NoDup(a) && NoDup(b)
    ensures ArrayEquals(a, b) <==> Elems(a) == Elems(b)
  {
    NoDupCardinality(a);
    NoDupCardinality(b);
    if ArrayEquals(a, b) {
      assert Elems(a) <= Elems(b);
      SubsetCardinality(Elems(a), Elems(b));
    }
    if Elems(a) == Elems(b) {
      forall i | 0 <= i < |a| ensures a[i] in b {
        assert a[i] in Elems(a);
      }
    }
  }

  /** `arraysIntersection`: the words of `a` that occur in `b`, in the order of `a`. */
  function ArraysIntersection(a: seq<string>, b: seq<string>): (r: seq<string>)
    ensures forall x :: x in r <==> x in a && x in b
  {
    assert forall x :: x in Keep(a, b) <==> x in a && x in b by {
      forall x ensures x in Keep(a, b) <==> x in a && x in b {
        KeepMembership(a, b, x);
      }
    }
    Keep(a, b)
  }

  /** The intersection keeps the order of the selection. */
  lemma IntersectionKeepsOrder(a: seq<string>, b: seq<string>)
    ensures IsSubsequence(ArraysIntersection(a, b), a)
  {
    KeepIsSubsequence(a, b);
  }

  /** For a duplicate-free selection the intersection counts the words the two have in common. */
  lemma IntersectionSize(a: seq<string>, b: seq<string>)
    requires NoDup(a)
    ensures NoDup(ArraysIntersection(a, b))
    ensures |ArraysIntersection(a, b)| == |Elems(a) * Elems(b)|
  {
    var r := ArraysIntersection(a, b);
    KeepNoDup(a, b);
    NoDupCardinality(r);
    assert Elems(r) == Elems(a) * Elems(b);
  }

  /** How many selected words belong to category `g`. */
  function Overlap(sel: seq<string>, g: Category): nat {
    |Keep(sel, g.members)|
  }

  /** The running maximum `largestIntersection` after visiting the first `n` categories. */
  function MaxIntersectionUpTo(sel: seq<string>, groups: seq<Category>, n: nat): nat
    requires n <= |groups|
  {
    if n == 0 then 0
    else
      var prev := MaxIntersectionUpTo(sel, groups, n - 1);
      var here := Overlap(sel, groups[n - 1]);
      if here > prev then here else prev
  }

  /** The running maximum once every category has been visited. */
  function MaxIntersection(sel: seq<string>, groups: seq<Category>): nat {
    MaxIntersectionUpTo(sel, groups, |groups|)
  }

  /** The running maximum bounds every overlap seen so far and, unless zero, is attained by one of them. */
  lemma {:induction false} MaxIntersectionUpToIsMaximum(sel: seq<string>, groups: seq<Category>, n: nat)
    requires n <= |groups|
    ensures forall i :: 0 <= i < n ==> Overlap(sel, groups[i]) <= MaxIntersectionUpTo(sel, groups, n)
    ensures var m := MaxIntersectionUpTo(sel, groups, n);
      m == 0 || exists i :: 0 <= i < n && Overlap(sel, groups[i]) == m
  {
    if n > 0 {
      MaxIntersectionUpToIsMaximum(sel, groups, n - 1);
      var prev := MaxIntersectionUpTo(sel, groups, n - 1);
      var here := Overlap(sel, groups[n - 1]);
      assert MaxIntersectionUpTo(sel, groups, n) == if here > prev then here else prev;
    }
  }

  /** `MaxIntersection` is the largest overlap of the selection with any category (0 when there are none). */
  lemma MaxIntersectionIsMaximum(sel: seq<string>, groups: seq<Category>)
    ensures forall i :: 0 <= i < |groups| ==> Overlap(sel, groups[i]) <= MaxIntersection(sel, groups)
    ensures var m := MaxIntersection(sel, groups);
      m == 0 || exists i :: 0 <= i < |groups| && Overlap(sel, groups[i]) == m
  {
    MaxIntersectionUpToIsMaximum(sel, groups, |groups|);
  }

  /** The repeat-guess guard: some earlier wrong guess `arrayEquals` the selection. */
  predicate AlreadyGuessed(wrongGuesses: seq<seq<string>>, sel: seq<string>) {
    exists i :: 0 <= i < |wrongGuesses| && ArrayEquals(wrongGuesses[i], sel)
  }

  /** `k` is the first category all four of whose words are selected. */
  predicate FirstFullMatch(sel: seq<string>, groups: seq<Category>, k: int) {
    && 0 <= k < |groups|
    && Overlap(sel, groups[k]) == GroupSize
    && forall j :: 0 <= j < k ==> Overlap(sel, groups[j]) != GroupSize
  }

  /** Some category shares exactly `n` words with the selection. */
  predicate SomeOverlap(sel: seq<string>, groups: seq<Category>, n: nat) {
    exists k :: 0 <= k < |groups| && Overlap(sel, groups[k]) == n
  }

  /**
   * `onClickCell`: clears the message; a selected word is taken out (its first
   * occurrence); an unselected one is appended unless four are selected.
   */
  function OnClickCell(st: State, cell: string): (r: State)
    ensures r.messageToUser == ""
    ensures r.(selectedCells := st.selectedCells, messageToUser := st.messageToUser) == st
    ensures cell in st.selectedCells ==>
      exists i :: 0 <= i < |st.selectedCells| && st.selectedCells[i] == cell &&
        cell !in st.selectedCells[..i] &&
        r.selectedCells == st.selectedCells[..i] + st.selectedCells[i + 1..]
    ensures cell !in st.selectedCells && |st.selectedCells| >= GroupSize ==>
      r.selectedCells == st.selectedCells
    ensures cell !in st.selectedCells && |st.selectedCells| < GroupSize ==>
      r.selectedCells == st.selectedCells + [cell]
    ensures |st.selectedCells| <= GroupSize ==> |r.selectedCells| <= GroupSize
    ensures Valid(st) ==> Valid(r)
  {
    var sel := st.selectedCells;
    var cleared := st.(messageToUser := "");
    match FirstIndex(sel, (w: string) => w == cell)
    case Some(pos) =>
      NoDupRemoveAt(sel, pos);
      cleared.(selectedCells := sel[..pos] + sel[pos + 1..])
    case None =>
      if |sel| > GroupSize - 1 then cleared
      else
        assert NoDup(sel) ==> NoDup(sel + [cell]) by {
          if NoDup(sel) {
            forall i, j | 0 <= i < j < |sel + [cell]| ensures (sel + [cell])[i] != (sel + [cell])[j] {
              if j == |sel| {
                assert (sel + [cell])[i] == sel[i];
              }
            }
          }
        }
        cleared.(selectedCells := sel + [cell])
  }

  /** `isSelected`: whether the word is part of the current selection. */
  function IsSelected(st: State, cell: string): bool {
    cell in st.selectedCells
  }

  /** A click flips whether the word is selected, unless it would be a fifth word. */
  lemma ClickTogglesSelection(st: State, cell: string)
    requires Valid(st)
    requires IsSelected(st, cell) || |st.selectedCells| < GroupSize
    ensures IsSelected(OnClickCell(st, cell), cell) == !IsSelected(st, cell)
  {
    if IsSelected(st, cell) {
      var sel := st.selectedCells;
      var i :| 0 <= i < |sel| && sel[i] == cell && OnClickCell(st, cell).selectedCells == sel[..i] + sel[i + 1..];
      NoDupRemoveAt(sel, i);
    }
  }

  /** Clicking an unselected word twice gives back the selection it started from. */
  lemma ClickTwiceRestoresSelection(st: State, cell: string)
    requires Valid(st)
    requires !IsSelected(st, cell) && |st.selectedCells| < GroupSize
    ensures OnClickCell(OnClickCell(st, cell), cell) == st.(messageToUser := "")
  {
    var sel := st.selectedCells;
    var once := OnClickCell(st, cell);
    assert once.selectedCells == sel + [cell];
    var i :| 0 <= i < |sel + [cell]| && (sel + [cell])[i] == cell && cell !in (sel + [cell])[..i] &&
      OnClickCell(once, cell).selectedCells == (sel + [cell])[..i] + (sel + [cell])[i + 1..];
    assert i == |sel|;
    assert (sel + [cell])[..i] == sel;
  }

  /**
   * `guessSelected`, with the current puzzle loaded: clears the message; a
   * selection equal (as a set) to an earlier wrong guess only sets
   * ALREADY_GUESSED; the first category whose four words are all selected is
   * recorded as correct, its words leave the grid and the selection is
   * emptied; otherwise the selection is recorded as a wrong guess with ONE_AWAY
   * when the best category overlap is 3 and SORRY below that.
   */
  function GuessSelected(st: State): (r: State)
    requires st.currentPuzzle.Some?
    ensures r.currentPuzzle == st.currentPuzzle
  {
    var sel := st.selectedCells;
    var groups := st.currentPuzzle.value.groups;
    var cleared := st.(messageToUser := "");
    if AlreadyGuessed(st.wrongGuesses, sel) then
      cleared.(messageToUser := ALREADY_GUESSED)
    else
      match FirstIndex(groups, (g: Category) => Overlap(sel, g) == GroupSize)
      case Some(k) =>
        cleared.(correctGuesses := st.correctGuesses + [groups[k]],
                 remainingWords := Chunk(Drop(Flatten(st.remainingWords), sel)),
                 selectedCells := [])
      case None =>
        var largest := MaxIntersection(sel, groups);
        if largest < GroupSize then
          cleared.(wrongGuesses := st.wrongGuesses + [sel],
                   messageToUser := if largest == GroupSize - 1 then ONE_AWAY else SORRY)
        else
          cleared
  }

  /**
   * The four outcomes of a guess: a repeated wrong guess, a full match with
   * the first fully selected category, a miss (ONE_AWAY exactly when some
   * category shares three words), and a selection of more than four words
   * overlapping a category beyond four, which only clears the message.
   */
  lemma GuessSelectedOutcomes(st: State)
    requires st.currentPuzzle.Some?
    ensures var r := GuessSelected(st);
      AlreadyGuessed(st.wrongGuesses, st.selectedCells) ==>
        r == st.(messageToUser := ALREADY_GUESSED)
    ensures var r := GuessSelected(st);
      !AlreadyGuessed(st.wrongGuesses, st.selectedCells) &&
      SomeOverlap(st.selectedCells, st.currentPuzzle.value.groups, GroupSize) ==>
        && (exists k :: FirstFullMatch(st.selectedCells, st.currentPuzzle.value.groups, k) &&
              r.correctGuesses == st.correctGuesses + [st.currentPuzzle.value.groups[k]])
        && r.selectedCells == []
        && Flatten(r.remainingWords) == Drop(Flatten(st.remainingWords), st.selectedCells)
        && WellChunked(r.remainingWords)
        && r.wrongGuesses == st.wrongGuesses
        && r.messageToUser == ""
    ensures var r := GuessSelected(st);
      !AlreadyGuessed(st.wrongGuesses, st.selectedCells) &&
      (forall k :: 0 <= k < |st.currentPuzzle.value.groups| ==>
         Overlap(st.selectedCells, st.currentPuzzle.value.groups[k]) < GroupSize) ==>
        r == st.(wrongGuesses := st.wrongGuesses + [st.selectedCells],
                 messageToUser :=
                   if SomeOverlap(st.selectedCells, st.currentPuzzle.value.groups, GroupSize - 1)
                   then ONE_AWAY else SORRY)
    ensures var r := GuessSelected(st);
      !AlreadyGuessed(st.wrongGuesses, st.selectedCells) &&
      !SomeOverlap(st.selectedCells, st.currentPuzzle.value.groups, GroupSize) &&
      (exists k :: 0 <= k < |st.currentPuzzle.value.groups| &&
         Overlap(st.selectedCells, st.currentPuzzle.value.groups[k]) > GroupSize) ==>
        r == st.(messageToUser := "")
  {
    var sel := st.selectedCells;
    var groups := st.currentPuzzle.value.groups;
    if !AlreadyGuessed(st.wrongGuesses, sel) {
      match FirstIndex(groups, (g: Category) => Overlap(sel, g) == GroupSize)
      case Some(k) =>
        assert FirstFullMatch(sel, groups, k);
        GuessSelectedOnMatch(st, k);
      case None =>
        MaxIntersectionIsMaximum(sel, groups);
        GuessSelectedOnMiss(st);
        var largest := MaxIntersection(sel, groups);
        if largest < GroupSize {
          assert largest == GroupSize - 1 <==> SomeOverlap(sel, groups, GroupSize - 1);
        }
    }
  }

  /** How `guessSelected` ends when category `k` is the first full match. */
  lemma GuessSelectedOnMatch(st: State, k: nat)
    requires st.currentPuzzle.Some?
    requires !AlreadyGuessed(st.wrongGuesses, st.selectedCells)
    requires FirstFullMatch(st.selectedCells, st.currentPuzzle.value.groups, k)
    ensures GuessSelected(st) ==
      st.(messageToUser := "",
          correctGuesses := st.correctGuesses + [st.currentPuzzle.value.groups[k]],
          remainingWords := Chunk(Drop(Flatten(st.remainingWords), st.selectedCells)),
          selectedCells := [])
  {
    var sel := st.selectedCells;
    var groups := st.currentPuzzle.value.groups;
    var found := FirstIndex(groups, (g: Category) => Overlap(sel, g) == GroupSize);
    assert found == Some(k);
  }

  /** How `guessSelected` ends when no category is a full match. */
  lemma GuessSelectedOnMiss(st: State)
    requires st.currentPuzzle.Some?
    requires !AlreadyGuessed(st.wrongGuesses, st.selectedCells)
    requires forall j :: 0 <= j < |st.currentPuzzle.value.groups| ==>
      Overlap(st.selectedCells, st.currentPuzzle.value.groups[j]) != GroupSize
    ensures var largest := MaxIntersection(st.selectedCells, st.currentPuzzle.value.groups);
      GuessSelected(st) ==
        if largest < GroupSize then
          st.(wrongGuesses := st.wrongGuesses + [st.selectedCells],
              messageToUser := if largest == GroupSize - 1 then ONE_AWAY else SORRY)
        else st.(messageToUser := "")
  {
  }

  /**
   * The `for` loop of `guessSelected`: categories are visited in order, the
   * running maximum overlap is kept, and the first category whose intersection
   * with the selection has four words stops the loop (`break`).
   */
  method VisitGroups(sel: seq<string>, groups: seq<Category>) returns (largest: nat, found: Option<nat>)
    ensures found.Some? ==> FirstFullMatch(sel, groups, found.value) && largest >= GroupSize
    ensures found.None? ==>
      && (forall j :: 0 <= j < |groups| ==> Overlap(sel, groups[j]) != GroupSize)
      && largest == MaxIntersection(sel, groups)
  {
    largest := 0;
    var i := 0;
    while i < |groups|
      invariant 0 <= i <= |groups|
      invariant largest == MaxIntersectionUpTo(sel, groups, i)
      invariant forall j :: 0 <= j < i ==> Overlap(sel, groups[j]) != GroupSize
    {
      var intersection := ArraysIntersection(sel, groups[i].members);
      assert Overlap(sel, groups[i]) == |intersection|;
      largest := if |intersection| > largest then |intersection| else largest;
      assert largest == MaxIntersectionUpTo(sel, groups, i + 1);
      if |intersection| == GroupSize {
        return largest, Some(i);
      }
      i := i + 1;
    }
    return largest, None;
  }

  /**
   * `guessSelected` as written: the repeat guard, the loop, the update made
   * on a full match (the words left are filtered and re-chunked by the
   * chunking loop), and the wrong-guess record after the loop when the
   * maximum overlap stayed below four. A match leaves the maximum at four or
   * more, so the wrong-guess block is skipped exactly when the loop broke.
   */
  method GuessSelectedLoop(st: State) returns (r: State)
    requires st.currentPuzzle.Some?
    ensures r == GuessSelected(st)
  {
    r := st.(messageToUser := "");
    var sel := st.selectedCells;
    if AlreadyGuessed(r.wrongGuesses, sel) {
      r := r.(messageToUser := ALREADY_GUESSED);
      return;
    }
    var groups := st.currentPuzzle.value.groups;
    var largestIntersection, found := VisitGroups(sel, groups);
    if found.Some? {
      GuessSelectedOnMatch(st, found.value);
      r := r.(correctGuesses := r.correctGuesses + [groups[found.value]]);
      var stillRem := Drop(Flatten(r.remainingWords), sel);
      var rows := ChunkRows(stillRem);
      r := r.(remainingWords := rows, selectedCells := []);
    } else {
      GuessSelectedOnMiss(st);
      if largestIntersection < GroupSize {
        r := r.(wrongGuesses := r.wrongGuesses + [sel],
                messageToUser := if largestIntersection == GroupSize - 1 then ONE_AWAY else SORRY);
      }
    }
  }

  /** Guessing keeps the selection within four distinct words and every wrong guess such a selection. */
  lemma GuessSelectedPreservesValid(st: State)
    requires st.currentPuzzle.Some? && Valid(st)
    ensures Valid(GuessSelected(st))
  {
    var r := GuessSelected(st);
    GuessSelectedOutcomes(st);
    assert forall i :: 0 <= i < |r.wrongGuesses| ==>
      r.wrongGuesses[i] in st.wrongGuesses || r.wrongGuesses[i] == st.selectedCells;
  }

  /**
   * A wrong guess cannot be recorded twice: once rejected, the same words
   * selected again in any order are answered with ALREADY_GUESSED and
   * nothing else changes.
   */
  lemma RepeatedWrongGuessIsRejected(st: State, again: seq<string>)
    requires st.currentPuzzle.Some? && Valid(st)
    requires !AlreadyGuessed(st.wrongGuesses, st.selectedCells)
    requires forall k :: 0 <= k < |st.currentPuzzle.value.groups| ==>
      Overlap(st.selectedCells, st.currentPuzzle.value.groups[k]) < GroupSize
    requires NoDup(again) && Elems(again) == Elems(st.selectedCells)
    ensures var after := GuessSelected(st).(selectedCells := again);
      GuessSelected(after) == after.(messageToUser := ALREADY_GUESSED)
  {
    var first := GuessSelected(st);
    var after := first.(selectedCells := again);
    GuessSelectedOutcomes(st);
    GuessSelectedOutcomes(after);
    ArrayEqualsIsSetEquality(st.selectedCells, again);
    var last := |first.wrongGuesses| - 1;
    assert first.wrongGuesses[last] == st.selectedCells;
    assert AlreadyGuessed(after.wrongGuesses, again);
  }

  /** A selection of fewer than four words can never be correct; it is recorded as a wrong guess. */
  lemma UnderfilledGuessIsWrong(st: State)
    requires st.currentPuzzle.Some?
    requires !AlreadyGuessed(st.wrongGuesses, st.selectedCells)
    requires |st.selectedCells| < GroupSize
    ensures GuessSelected(st).wrongGuesses == st.wrongGuesses + [st.selectedCells]
    ensures GuessSelected(st).correctGuesses == st.correctGuesses
    ensures GuessSelected(st).selectedCells == st.selectedCells
    ensures GuessSelected(st).remainingWords == st.remainingWords
    ensures GuessSelected(st).messageToUser in {ONE_AWAY, SORRY}
  {
    var groups := st.currentPuzzle.value.groups;
    forall k | 0 <= k < |groups| ensures Overlap(st.selectedCells, groups[k]) < GroupSize {
      assert |Keep(st.selectedCells, groups[k].members)| <= |st.selectedCells|;
    }
    GuessSelectedOutcomes(st);
  }

  /** After a correct guess none of the selected words is left in any row. */
  lemma CorrectGuessLeavesNoSelectedWord(st: State)
    requires st.currentPuzzle.Some?
    requires !AlreadyGuessed(st.wrongGuesses, st.selectedCells)
    requires SomeOverlap(st.selectedCells, st.currentPuzzle.value.groups, GroupSize)
    ensures forall w, i :: w in st.selectedCells && 0 <= i < |GuessSelected(st).remainingWords| ==>
      w !in GuessSelected(st).remainingWords[i]
  {
    var sel := st.selectedCells;
    var words := Flatten(st.remainingWords);
    var r := GuessSelected(st);
    GuessSelectedOutcomes(st);
    assert Flatten(r.remainingWords) == Drop(words, sel);
    forall w, i | w in sel && 0 <= i < |r.remainingWords| ensures w !in r.remainingWords[i] {
      FlattenMembership(r.remainingWords, w);
      DropMembership(words, sel, w);
    }
  }

  /**
   * On a grid without repeated words that holds every selected word, a
   * correct guess takes exactly four words out of the grid, and none of the
   * selected words is left in any row.
   */
  lemma CorrectGuessRemovesExactlyTheSelection(st: State)
    requires st.currentPuzzle.Some? && Valid(st)
    requires !AlreadyGuessed(st.wrongGuesses, st.selectedCells)
    requires SomeOverlap(st.selectedCells, st.currentPuzzle.value.groups, GroupSize)
    requires NoDup(Flatten(st.remainingWords))
    requires Elems(st.selectedCells) <= Elems(Flatten(st.remainingWords))
    ensures |Flatten(GuessSelected(st).remainingWords)| == |Flatten(st.remainingWords)| - GroupSize
    ensures forall w, i :: w in st.selectedCells && 0 <= i < |GuessSelected(st).remainingWords| ==>
      w !in GuessSelected(st).remainingWords[i]
  {
    var sel := st.selectedCells;
    var words := Flatten(st.remainingWords);
    var r := GuessSelected(st);
    GuessSelectedOutcomes(st);
    var k :| 0 <= k < |st.currentPuzzle.value.groups| &&
      Overlap(sel, st.currentPuzzle.value.groups[k]) == GroupSize;
    assert |sel| == GroupSize by {
      assert |Keep(sel, st.currentPuzzle.value.groups[k].members)| <= |sel|;
    }
    assert Flatten(r.remainingWords) == Drop(words, sel);
    DropExactCount(words, sel);
    CorrectGuessLeavesNoSelectedWord(st);
  }

  /**
   * A correct guess keeps the relative order of the words left in the grid,
   * and a grid without repeated words stays without them.
   */
  lemma CorrectGuessKeepsGridOrder(st: State)
    requires st.currentPuzzle.Some?
    requires !AlreadyGuessed(st.wrongGuesses, st.selectedCells)
    requires SomeOverlap(st.selectedCells, st.currentPuzzle.value.groups, GroupSize)
    ensures IsSubsequence(Flatten(GuessSelected(st).remainingWords), Flatten(st.remainingWords))
    ensures NoDup(Flatten(st.remainingWords)) ==> NoDup(Flatten(GuessSelected(st).remainingWords))
  {
    GuessSelectedOutcomes(st);
    var r := GuessSelected(st);
    assert Flatten(r.remainingWords) == Drop(Flatten(st.remainingWords), st.selectedCells);
    DropIsSubsequence(Flatten(st.remainingWords), st.selectedCells);
    if NoDup(Flatten(st.remainingWords)) {
      DropNoDup(Flatten(st.remainingWords), st.selectedCells);
    }
  }

  /**
   * `shuffle`, with its randomness supplied as `picks`: clears the message and
   * lays the same words out again, in the drawn order, in rows of four.
   */
  function Shuffle(st: State, picks: seq<nat>): (r: State)
    ensures multiset(Flatten(r.remainingWords)) == multiset(Flatten(st.remainingWords))
    ensures WellChunked(r.remainingWords)
    ensures r.(remainingWords := st.remainingWords) == st.(messageToUser := "")
    ensures Valid(st) ==> Valid(r)
  {
    st.(remainingWords := Chunk(Draw(Flatten(st.remainingWords), picks)), messageToUser := "")
  }

  /** Every arrangement of the remaining words is a possible outcome of a shuffle. */
  lemma ShuffleReachesEveryArrangement(st: State, words: seq<string>) returns (picks: seq<nat>)
    requires multiset(words) == multiset(Flatten(st.remainingWords))
    ensures Shuffle(st, picks).remainingWords == Chunk(words)
  {
    picks := DrawReachesEveryArrangement(Flatten(st.remainingWords), words);
  }

  /** `deselectAll`: clears the message and the selection, nothing else. */
  function DeselectAll(st: State): (r: State)
    ensures r.selectedCells == [] && r.messageToUser == ""
    ensures r.(selectedCells := st.selectedCells, messageToUser := st.messageToUser) == st
    ensures Valid(st) ==> Valid(r)
  {
    st.(selectedCells := [], messageToUser := "")
  }

  /** The `next` handler of `initPuzzle`: a fresh session on the delivered puzzle. */
  function Reset(p: Puzzle): (r: State)
    ensures r.currentPuzzle == Some(p) && r.remainingWords == p.startingGroups
    ensures r.selectedCells == [] && r.wrongGuesses == [] && r.correctGuesses == []
    ensures r.messageToUser == ""
    ensures Valid(r)
  {
    State(Some(p), p.startingGroups, [], [], [], "")
  }

  /**
   * `initPuzzle`: fetch the record and reset the session from it. A missing
   * canonical record is delivered as `undefined`: the handler stores it as the
   * current puzzle and then fails, so only that field changes. A missing keyed
   * record makes the normalisation fail inside `fetchOne`, so nothing changes.
   */
  function InitPuzzle(st: State, id: int, source: Source, origs: seq<Puzzle>, nyts: seq<NytPuzzle>): (r: State)
    ensures source == Orig && (exists i :: 0 <= i < |origs| && origs[i].id == id) ==>
      exists i :: && 0 <= i < |origs| && origs[i].id == id && r == Reset(origs[i])
                  && forall j :: 0 <= j < i ==> origs[j].id != id
    ensures source == Nyt && (exists i :: 0 <= i < |nyts| && nyts[i].id == id) ==>
      exists i :: && 0 <= i < |nyts| && nyts[i].id == id && r == Reset(NormalizeNytPuzzle(nyts[i]))
                  && forall j :: 0 <= j < i ==> nyts[j].id != id
    ensures source == Orig && (forall i :: 0 <= i < |origs| ==> origs[i].id != id) ==>
      r == st.(currentPuzzle := None)
    ensures source == Nyt && (forall i :: 0 <= i < |nyts| ==> nyts[i].id != id) ==>
      r == st
    ensures Valid(st) ==> Valid(r)
  {
    match FetchOne(id, source, origs, nyts)
    case Some(p) => Reset(p)
    case None => if source == Orig then st.(currentPuzzle := None) else st
  }

  /** A successful load forgets everything about the session it replaces. */
  lemma InitPuzzleForgetsPriorState(st1: State, st2: State, id: int, source: Source,
                                    origs: seq<Puzzle>, nyts: seq<NytPuzzle>)
    requires FetchOne(id, source, origs, nyts).Some?
    ensures InitPuzzle(st1, id, source, origs, nyts) == InitPuzzle(st2, id, source, origs, nyts)
    ensures InitPuzzle(st1, id, source, origs, nyts).currentPuzzle.value.id == id
  {
  }

  /** Loading the same puzzle twice is the same as loading it once. */
  lemma InitPuzzleIdempotent(st: State, id: int, source: Source, origs: seq<Puzzle>, nyts: seq<NytPuzzle>)
    ensures InitPuzzle(InitPuzzle(st, id, source, origs, nyts), id, source, origs, nyts)
         == InitPuzzle(st, id, source, origs, nyts)
  {
  }
}

=== FILE: puzzle_service.dfy ===
/**
 * The puzzle data provider: the two stored puzzle shapes, the normalisation
 * of the keyed ("nyt") shape into the canonical one, lookup by id and the
 * dataset sizes. The bundled JSON datasets are parameters here.
 */
module PuzzleService {
  import opened Wrappers
  import opened Sequences

  /** One hidden category (`CxnPuzzleCategory`). */
  datatype Category = Category(commonality: string, level: int, members: seq<string>)

  /** A canonical puzzle record (`CxnPuzzle`). */
  datatype Puzzle = Puzzle(id: int, groups: seq<Category>, startingGroups: seq<seq<string>>)

  /** The value stored under one label of the keyed shape. */
  datatype NytGroup = NytGroup(level: int, members: seq<string>)

  /**
   * A keyed puzzle record (`NytCxnPuzzle`): `groups` lists the label/entry
   * pairs of the JSON object in `Object.keys` iteration order.
   */
  datatype NytPuzzle = NytPuzzle(id: int, groups: seq<(string, NytGroup)>, startingGroups: seq<seq<string>>)

  /** `PuzzleSource`: which bundled dataset to read. */
  datatype Source = Nyt | Orig {
    /** The string the source is known by. */
    function Name(): string {
      match this
      case Nyt => "nyt"
      case Orig => "orig"
    }
  }

  /** Keys of a JSON object are distinct. */
  predicate DistinctLabels(groups: seq<(string, NytGroup)>) {
    forall i, j :: 0 <= i < j < |groups| ==> groups[i].0 != groups[j].0
  }

  /** No two categories share a commonality. */
  predicate DistinctCommonalities(groups: seq<Category>) {
    forall i, j :: 0 <= i < j < |groups| ==> groups[i].commonality != groups[j].commonality
  }

  /** The `Object.keys(grps).forEach(key => groups.push(...))` loop of `normalizeNytPuzzle`. */
  function NormalizeGroups(groups: seq<(string, NytGroup)>): (cats: seq<Category>)
    ensures |cats| == |groups|
    ensures forall i :: 0 <= i < |groups| ==>
      cats[i].commonality == groups[i].0 &&
      cats[i].level == groups[i].1.level &&
      cats[i].members == groups[i].1.members
  {
    if |groups| == 0 then []
    else
      var cats := NormalizeGroups(groups[..|groups| - 1]);
      var (key, entry) := groups[|groups| - 1];
      cats + [Category(key, entry.level, entry.members)]
  }

  /** `normalizeNytPuzzle`: the keyed shape turned into the canonical one. */
  function NormalizeNytPuzzle(nyt: NytPuzzle): (p: Puzzle)
    ensures p.id == nyt.id
    ensures p.startingGroups == nyt.startingGroups
    ensures |p.groups| == |nyt.groups|
    ensures forall i :: 0 <= i < |nyt.groups| ==>
      p.groups[i].commonality == nyt.groups[i].0 &&
      p.groups[i].level == nyt.groups[i].1.level &&
      p.groups[i].members == nyt.groups[i].1.members
    ensures DistinctLabels(nyt.groups) ==> DistinctCommonalities(p.groups)
  {
    Puzzle(nyt.id, NormalizeGroups(nyt.groups), nyt.startingGroups)
  }

  /** The keyed shape a canonical puzzle would be stored as (the inverse of normalisation). */
  function ToNyt(p: Puzzle): (nyt: NytPuzzle)
    ensures DistinctCommonalities(p.groups) ==> DistinctLabels(nyt.groups)
  {
    NytPuzzle(p.id, seq(|p.groups|, i requires 0 <= i < |p.groups| =>
      (p.groups[i].commonality, NytGroup(p.groups[i].level, p.groups[i].members))), p.startingGroups)
  }

  /** Normalisation loses nothing: the keyed record can be recovered from its normal form. */
  lemma NormalizeThenToNyt(nyt: NytPuzzle)
    ensures ToNyt(NormalizeNytPuzzle(nyt)) == nyt
  {
    var back := ToNyt(NormalizeNytPuzzle(nyt));
    assert back.groups == nyt.groups;
  }

  /**
   * Every canonical puzzle with distinct commonalities is the normal form of
   * a keyed record with distinct labels, as a JSON object's keys are.
   */
  lemma ToNytThenNormalize(p: Puzzle)
    requires DistinctCommonalities(p.groups)
    ensures DistinctLabels(ToNyt(p).groups)
    ensures NormalizeNytPuzzle(ToNyt(p)) == p
  {
    var back := NormalizeNytPuzzle(ToNyt(p));
    assert back.groups == p.groups;
  }

  /**
   * `fetchOne`: the first record of the chosen dataset whose id equals `id`,
   * normalised when it comes from the keyed dataset; None where `find`
   * yields `undefined`.
   */
  function FetchOne(id: int, source: Source, origs: seq<Puzzle>, nyts: seq<NytPuzzle>): (r: Option<Puzzle>)
    ensures source == Orig ==> (r.None? <==> forall i :: 0 <= i < |origs| ==> origs[i].id != id)
    ensures source == Nyt ==> (r.None? <==> forall i :: 0 <= i < |nyts| ==> nyts[i].id != id)
    ensures source == Orig && r.Some? ==>
      exists i :: 0 <= i < |origs| && origs[i].id == id && r.value == origs[i] &&
        forall j :: 0 <= j < i ==> origs[j].id != id
    ensures source == Nyt && r.Some? ==>
      exists i :: 0 <= i < |nyts| && nyts[i].id == id && r.value == NormalizeNytPuzzle(nyts[i]) &&
        forall j :: 0 <= j < i ==> nyts[j].id != id
    ensures r.Some? ==> r.value.id == id
  {
    match source
    case Orig =>
      (match FirstIndex(origs, (p: Puzzle) => p.id == id)
       case Some(i) => Some(origs[i])
       case None => None)
    case Nyt =>
      (match FirstIndex(nyts, (p: NytPuzzle) => p.id == id)
       case Some(i) => Some(NormalizeNytPuzzle(nyts[i]))
       case None => None)
  }

  /** `getNumberPuzzles`: any source string other than "nyt" counts the canonical dataset. */
  function GetNumberPuzzles(puzzSrc: string, origs: seq<Puzzle>, nyts: seq<NytPuzzle>): nat {
    if puzzSrc == "nyt" then |nyts| else |origs|
  }

  /** A record `FetchOne` finds sits at a position below the count reported for its source. */
  lemma FetchedRecordIsCounted(id: int, source: Source, origs: seq<Puzzle>, nyts: seq<NytPuzzle>)
    requires FetchOne(id, source, origs, nyts).Some?
    ensures exists i ::
              && 0 <= i < GetNumberPuzzles(source.Name(), origs, nyts)
              && (if source == Nyt then nyts[i].id == id else origs[i].id == id)
  {
    var r := FetchOne(id, source, origs, nyts);
    if source == Nyt {
      var i :| 0 <= i < |nyts| && nyts[i].id == id && r.value == NormalizeNytPuzzle(nyts[i]);
      assert 0 <= i < GetNumberPuzzles(source.Name(), origs, nyts);
    } else {
      var i :| 0 <= i < |origs| && origs[i].id == id && r.value == origs[i];
      assert "orig" != "nyt";
      assert 0 <= i < GetNumberPuzzles(source.Name(), origs, nyts);
    }
  }
}

=== FILE: rows.dfy ===
/**
 * The grid of remaining words: flattening rows into one sequence, chunking a
 * sequence back into rows of four (the `for (i = 0; i < n; i += 4)
 * push(slice(i, i + 4))` loop), and the shuffle of the flattened words.
 */
module Rows {
  /** Width of a displayed row. */
  const RowWidth: nat := 4

  /** `rows.flat()`: the rows concatenated in order. */
  function Flatten<T>(rows: seq<seq<T>>): seq<T> {
    if |rows| == 0 then [] else rows[0] + Flatten(rows[1..])
  }

  /** A word occurs in the flattened grid exactly when it occurs in some row. */
  lemma {:induction false} FlattenMembership<T>(rows: seq<seq<T>>, x: T)
    ensures x in Flatten(rows) <==> exists i :: 0 <= i < |rows| && x in rows[i]
  {
    if |rows| > 0 {
      FlattenMembership(rows[1..], x);
      if x in Flatten(rows[1..]) {
        var i :| 0 <= i < |rows[1..]| && x in rows[1..][i];
        assert x in rows[i + 1];
      }
      if exists i :: 0 <= i < |rows| && x in rows[i] {
        var i :| 0 <= i < |rows| && x in rows[i];
        if i > 0 {
          assert x in rows[1..][i - 1];
        }
      }
    }
  }

  /** Every row has 1 to 4 words, and every row but the last has exactly 4. */
  predicate WellChunked<T>(rows: seq<seq<T>>) {
    forall i :: 0 <= i < |rows| ==>
      0 < |rows[i]| <= RowWidth && (i < |rows| - 1 ==> |rows[i]| == RowWidth)
  }

  function Min(a: int, b: int): int {
    if a <= b then a else b
  }

  /** `slice(0, 4)` followed by the chunking of what is left. */
  function Chunk<T>(s: seq<T>): (rows: seq<seq<T>>)
    ensures Flatten(rows) == s
    ensures WellChunked(rows)
    decreases |s|
  {
    if |s| == 0 then []
    else
      var n := Min(RowWidth, |s|);
      var rest := Chunk(s[n..]);
      assert ([s[..n]] + rest)[1..] == rest;
      assert s == s[..n] + s[n..];
      [s[..n]] + rest
  }

  /** The number of rows is the word count divided by four, rounded up. */
  lemma {:induction false} ChunkRowCount<T>(s: seq<T>)
    ensures |Chunk(s)| == (|s| + RowWidth - 1) / RowWidth
    decreases |s|
  {
    if |s| > RowWidth {
      ChunkRowCount(s[RowWidth..]);
    }
  }

  /** Chunking is the only way to split a sequence into well-chunked rows. */
  lemma {:induction false} ChunkFlattenRoundTrip<T>(rows: seq<seq<T>>)
    requires WellChunked(rows)
    ensures Chunk(Flatten(rows)) == rows
  {
    if |rows| > 0 {
      var s := Flatten(rows);
      assert WellChunked(rows[1..]) by {
        forall i | 0 <= i < |rows[1..]|
          ensures 0 < |rows[1..][i]| <= RowWidth && (i < |rows[1..]| - 1 ==> |rows[1..][i]| == RowWidth)
        {
          assert rows[1..][i] == rows[i + 1];
        }
      }
      ChunkFlattenRoundTrip(rows[1..]);
      var n := Min(RowWidth, |s|);
      if |rows| > 1 {
        assert |rows[0]| == RowWidth;
        assert |Flatten(rows[1..])| > 0 by {
          assert rows[1..][0] == rows[1];
          assert |Flatten(rows[1..])| >= |rows[1]|;
        }
        assert n == |rows[0]|;
      } else {
        assert rows[1..] == [];
        assert n == |rows[0]|;
      }
      assert s[..n] == rows[0];
      assert s[n..] == Flatten(rows[1..]);
    }
  }

  /** One step of the chunking loop: the row starting at `i`, then the chunking of the rest. */
  lemma ChunkStep<T>(s: seq<T>, i: nat)
    requires i < |s|
    ensures Chunk(s[i..]) == [s[i..Min(i + RowWidth, |s|)]] + Chunk(s[Min(i + RowWidth, |s|)..])
  {
    var t := s[i..];
    var n := Min(RowWidth, |t|);
    assert t[..n] == s[i..Min(i + RowWidth, |s|)];
    assert t[n..] == s[Min(i + RowWidth, |s|)..];
  }

  /**
   * The chunking loop as written: `i` runs over 0, 4, 8, ... while below the
   * length, and each step appends `s.slice(i, i + 4)`, which stops at the end.
   */
  method ChunkRows<T>(s: seq<T>) returns (rows: seq<seq<T>>)
    ensures rows == Chunk(s)
  {
    rows := [];
    var i := 0;
    assert s[0..] == s;
    while i < |s|
      invariant 0 <= i
      invariant i < |s| ==> rows + Chunk(s[i..]) == Chunk(s)
      invariant i >= |s| ==> rows == Chunk(s)
      decreases |s| - i
    {
      var j := Min(i + RowWidth, |s|);
      ChunkStep(s, i);
      assert rows + Chunk(s[i..]) == (rows + [s[i..j]]) + Chunk(s[j..]);
      rows := rows + [s[i..j]];
      if j == |s| {
        assert s[j..] == [];
        assert rows == Chunk(s);
      }
      i := i + RowWidth;
    }
  }

  /** A random pick reduced to a position among `n` words. */
  function PickIndex(pick: nat, n: nat): (k: nat)
    requires n > 0
    ensures k < n
    ensures pick < n ==> k == pick
  {
    pick % n
  }

  /**
   * The shuffle with its randomness supplied as `picks`: the next word out is
   * the one at position `picks[0] % |s|` of the words not yet drawn (position
   * 0 once the picks run out).
   */
  function Draw<T>(s: seq<T>, picks: seq<nat>): (r: seq<T>)
    ensures multiset(r) == multiset(s)
    decreases |s|
  {
    if |s| == 0 then []
    else
      var k := if |picks| == 0 then 0 else PickIndex(picks[0], |s|);
      assert s == s[..k] + [s[k]] + s[k + 1..];
      [s[k]] + Draw(s[..k] + s[k + 1..], if |picks| == 0 then [] else picks[1..])
  }

  /** Taking out the element at `k` removes one copy of it. */
  lemma RemoveAtMultiset<T>(s: seq<T>, k: nat)
    requires k < |s|
    ensures multiset(s[..k] + s[k + 1..]) == multiset(s) - multiset{s[k]}
  {
    assert s == s[..k] + [s[k]] + s[k + 1..];
  }

  /** A pick of `k < |s|` draws `s[k]` first. */
  lemma DrawPick<T>(s: seq<T>, k: nat, more: seq<nat>)
    requires k < |s|
    ensures Draw(s, [k] + more) == [s[k]] + Draw(s[..k] + s[k + 1..], more)
  {
    var picks := [k] + more;
    assert picks[0] == k && picks[1..] == more;
    assert PickIndex(picks[0], |s|) == k;
  }

  /** Every rearrangement of `s` is the outcome of some choice of picks. */
  lemma {:induction false} DrawReachesEveryArrangement<T>(s: seq<T>, t: seq<T>) returns (picks: seq<nat>)
    requires multiset(t) == multiset(s)
    ensures Draw(s, picks) == t
    decreases |s|
  {
    if |s| == 0 {
      assert |t| == |multiset(t)| == 0;
      picks := [];
    } else {
      assert |t| == |multiset(t)| == |s|;
      assert t[0] in multiset(t);
      var k: nat :| k < |s| && s[k] == t[0];
      var rest := s[..k] + s[k + 1..];
      RemoveAtMultiset(s, k);
      assert t == [t[0]] + t[1..];
      assert multiset(t[1..]) == multiset(t) - multiset{t[0]};
      var more := DrawReachesEveryArrangement(rest, t[1..]);
      DrawPick(s, k, more);
      picks := [k] + more;
    }
  }
}

=== FILE: sequences.dfy ===
/**
 * Generic sequence operations the session relies on: the first-match search
 * behind `indexOf` and `find`, duplicate-freedom, and the two order-preserving filters
 * ("keep what occurs in t" and "drop what occurs in t").
 */
module Sequences {
  import opened Wrappers

  /** The index of the first element satisfying `p`, if any (`indexOf`, `find`). */
  function FirstIndex<T>(s: seq<T>, p: T -> bool): (r: Option<nat>)
    ensures r.Some? ==> r.value < |s| && p(s[r.value])
    ensures r.Some? ==> forall j :: 0 <= j < r.value ==> !p(s[j])
    ensures r.None? <==> forall j :: 0 <= j < |s| ==> !p(s[j])
  {
    if |s| == 0 then None
    else if p(s[0]) then Some(0)
    else
      match FirstIndex(s[1..], p)
      case None => None
      case Some(k) => Some(k + 1)
  }

  /** No element occurs twice. */
  predicate NoDup<T(==)>(s: seq<T>) {
    forall i, j :: 0 <= i < j < |s| ==> s[i] != s[j]
  }

  /** The set of elements of a sequence. */
  function Elems<T>(s: seq<T>): set<T> {
    set x | x in s
  }

  /** `s.filter(x => t.includes(x))`: the elements of `s` that occur in `t`, in order. */
  function Keep<T(==,!new)>(s: seq<T>, t: seq<T>): (r: seq<T>)
    ensures |r| <= |s|
  {
    if |s| == 0 then []
    else
      assert s == [s[0]] + s[1..];
      (if s[0] in t then [s[0]] else []) + Keep(s[1..], t)
  }

  /** `s.filter(x => !t.includes(x))`: the elements of `s` that do not occur in `t`, in order. */
  function Drop<T(==,!new)>(s: seq<T>, t: seq<T>): (r: seq<T>)
    ensures |r| <= |s|
  {
    if |s| == 0 then []
    else
      assert s == [s[0]] + s[1..];
      (if s[0] in t then [] else [s[0]]) + Drop(s[1..], t)
  }

  /** `Keep(s, t)` holds exactly the elements of `s` that occur in `t`. */
  lemma {:induction false} KeepMembership<T(!new)>(s: seq<T>, t: seq<T>, x: T)
    ensures x in Keep(s, t) <==> x in s && x in t
    decreases |s|
  {
    if |s| > 0 {
      KeepMembership(s[1..], t, x);
      assert s == [s[0]] + s[1..];
    }
  }

  /** `Drop(s, t)` holds exactly the elements of `s` that do not occur in `t`. */
  lemma {:induction false} DropMembership<T(!new)>(s: seq<T>, t: seq<T>, x: T)
    ensures x in Drop(s, t) <==> x in s && x !in t
    decreases |s|
  {
    if |s| > 0 {
      DropMembership(s[1..], t, x);
      assert s == [s[0]] + s[1..];
    }
  }

  /** `r` can be obtained from `s` by deleting elements, without reordering. */
  predicate IsSubsequence<T(==)>(r: seq<T>, s: seq<T>)
    decreases |s|
  {
    if |r| == 0 then true
    else if |s| == 0 then false
    else if r[0] == s[0] then IsSubsequence(r[1..], s[1..])
    else IsSubsequence(r, s[1..])
  }

  lemma {:induction false} KeepIsSubsequence<T(!new)>(s: seq<T>, t: seq<T>)
    ensures IsSubsequence(Keep(s, t), s)
    decreases |s|
  {
    if |s| > 0 {
      var rest := Keep(s[1..], t);
      KeepIsSubsequence(s[1..], t);
      if s[0] in t {
        var r := [s[0]] + rest;
        assert Keep(s, t) == r;
        assert r[0] == s[0] && r[1..] == rest;
      } else {
        assert Keep(s, t) == rest;
        if |rest| > 0 {
          KeepMembership(s[1..], t, rest[0]);
        }
      }
    }
  }

  lemma {:induction false} DropIsSubsequence<T(!new)>(s: seq<T>, t: seq<T>)
    ensures IsSubsequence(Drop(s, t), s)
    decreases |s|
  {
    if |s| > 0 {
      var rest := Drop(s[1..], t);
      DropIsSubsequence(s[1..], t);
      if s[0] !in t {
        var r := [s[0]] + rest;
        assert Drop(s, t) == r;
        assert r[0] == s[0] && r[1..] == rest;
      } else {
        assert Drop(s, t) == rest;
        if |rest| > 0 {
          DropMembership(s[1..], t, rest[0]);
        }
      }
    }
  }

  /** Every element of `s` lands in exactly one of the two filters. */
  lemma {:induction false} KeepDropPartition<T(!new)>(s: seq<T>, t: seq<T>)
    ensures |Keep(s, t)| + |Drop(s, t)| == |s|
  {
    if |s| > 0 {
      KeepDropPartition(s[1..], t);
    }
  }

  lemma NoDupCons<T>(x: T, s: seq<T>)
    ensures NoDup([x] + s) <==> x !in s && NoDup(s)
  {
    var xs := [x] + s;
    if x in s {
      var k :| 0 <= k < |s| && s[k] == x;
      assert xs[0] == xs[k + 1];
    } else if !NoDup(s) {
      var i, j :| 0 <= i < j < |s| && s[i] == s[j];
      assert xs[i + 1] == xs[j + 1];
    } else {
      forall i, j | 0 <= i < j < |xs| ensures xs[i] != xs[j] {
        if i > 0 {
          assert xs[i] == s[i - 1];
        }
        assert xs[j] == s[j - 1];
      }
    }
  }

  lemma {:induction false} KeepNoDup<T(!new)>(s: seq<T>, t: seq<T>)
    requires NoDup(s)
    ensures NoDup(Keep(s, t))
    decreases |s|
  {
    if |s| > 0 {
      assert s == [s[0]] + s[1..];
      NoDupCons(s[0], s[1..]);
      KeepNoDup(s[1..], t);
      KeepMembership(s[1..], t, s[0]);
      if s[0] in t {
        NoDupCons(s[0], Keep(s[1..], t));
      } else {
        assert Keep(s, t) == Keep(s[1..], t);
      }
    }
  }

  lemma {:induction false} DropNoDup<T(!new)>(s: seq<T>, t: seq<T>)
    requires NoDup(s)
    ensures NoDup(Drop(s, t))
    decreases |s|
  {
    if |s| > 0 {
      assert s == [s[0]] + s[1..];
      NoDupCons(s[0], s[1..]);
      DropNoDup(s[1..], t);
      DropMembership(s[1..], t, s[0]);
      if s[0] !in t {
        NoDupCons(s[0], Drop(s[1..], t));
      } else {
        assert Drop(s, t) == Drop(s[1..], t);
      }
    }
  }

  /** A duplicate-free sequence has as many distinct elements as it has positions. */
  lemma {:induction false} NoDupCardinality<T>(s: seq<T>)
    requires NoDup(s)
    ensures |Elems(s)| == |s|
  {
    if |s| > 0 {
      assert s == [s[0]] + s[1..];
      NoDupCons(s[0], s[1..]);
      NoDupCardinality(s[1..]);
      assert Elems(s) == {s[0]} + Elems(s[1..]);
      assert s[0] !in Elems(s[1..]);
    }
  }

  /** A finite set is not larger than a set that contains it. */
  lemma {:induction false} SubsetCardinality<T>(a: set<T>, b: set<T>)
    requires a <= b
    ensures |a| <= |b|
    ensures |a| == |b| ==> a == b
  {
    assert b == a + (b - a);
    assert a !! (b - a);
    assert |b| == |a| + |b - a|;
    if |a| == |b| {
      assert |b - a| == 0;
      assert b - a == {};
    }
  }

  /** Removing one position keeps a duplicate-free sequence duplicate-free and drops exactly that element. */
  lemma NoDupRemoveAt<T>(s: seq<T>, k: nat)
    requires k < |s|
    ensures NoDup(s) ==> NoDup(s[..k] + s[k + 1..])
    ensures NoDup(s) ==> s[k] !in s[..k] + s[k + 1..]
  {
    var r := s[..k] + s[k + 1..];
    forall i | 0 <= i < |r| ensures r[i] == s[if i < k then i else i + 1] {
    }
  }

  /** A duplicate-free selection `t` removed from a duplicate-free grid `s` that holds it shortens `s` by exactly `|t|`. */
  lemma DropExactCount<T(!new)>(s: seq<T>, t: seq<T>)
    requires NoDup(s) && NoDup(t) && Elems(t) <= Elems(s)
    ensures |Drop(s, t)| == |s| - |t|
  {
    KeepDropPartition(s, t);
    KeepNoDup(s, t);
    NoDupCardinality(Keep(s, t));
    NoDupCardinality(t);
    forall x ensures x in Elems(Keep(s, t)) <==> x in Elems(t) {
      KeepMembership(s, t, x);
    }
    assert Elems(Keep(s, t)) == Elems(t);
  }
}

=== FILE: wrappers.dfy ===
/** The optional value used where `find` in `fetchOne` may yield `undefined`. */
module Wrappers {

  datatype Option<+T> = None | Some(value: T)
}
